=== FILE: README.md ===
# FFI::EnumGenerator in Dafny

This project models the pure logic of `FFI::EnumGenerator` from the
ffi-enum-generator gem, an extension of Ruby-FFI (`lib/ffi/enum_generator.rb`). The generator collects C header names and a symbol
table that maps a C name to the label its value gets on the Ruby side. It writes a
small C program that prints every label with its value, compiles and runs that
program, and reads the printed lines back into an alternating
`[label, value, label, value, ...]` array.

The model has these parts:

- **Builder** (`builder.dfy`): the generator's state. It covers `initialize`,
  `symbol`, `include` with `Array#flatten`, and the block passed to `new`, which is a
  list of builder calls. Names are Ruby Symbols or Strings. They are different hash
  keys even when their text is the same. The table keeps insertion order, as a Ruby
  Hash does.
- **Probe** (`probe.dfy`): the C source that `generate` writes, built `puts` by
  `puts`. It includes the heredoc's `gsub(/^\t{6}/, '')`.
- **OutputParser** (`parser.dfy`): `output.split("\n")`, the pattern `^(\S+)\s(.*)$`,
  `Integer($2)`, and the `inject` that builds the alternating array. Both ways a line
  can make Ruby raise are modelled.
- **Diagnostics** (`diagnostics.dfy`): the compile-error message, with the compiler
  output tab-indented line by line.
- **EnumGenerator** (`generator.dfy`): `generate` end to end. The compiler is a
  parameter that judges the rendered source. The running probe is modelled as
  printing one `label value` line per table entry, where `env` gives each C name's
  integer value.
- **Lines** and **Decimal** (`lines.dfy`, `decimal.dfy`) hold the string helpers.
  They cover Ruby's `split("\n")`, which drops trailing empty fields, `join("\n")`,
  and `printf("%d")` paired with its inverse.
- **Results** (`results.dfy`) defines `Option` and `Result`.

The symbol table is keyed by the C name, because `symbol` stores
`@enum_symbols[name] = ruby_name` (lines 77-80). Registering a C name again
therefore replaces its label in place. Two C names that share a label are both
kept, because labels are not keys. `ReregisterKeepsPosition` and
`SharedLabelKeepsBoth` state the consequences.

## Model

| member | source | states |
|---|---|---|
| Builder.Fresh | lib/ffi/enum_generator.rb:61-63 | A fresh generator has no repeated keys, only "stdio.h" as its header list, and no name has a label. |
| Builder.IndexOf | lib/ffi/enum_generator.rb:79 | The position of a key in the insertion-ordered table. When one is found, it holds the key and no earlier entry does. When none is found, no entry holds the key. |
| Builder.Lookup | lib/ffi/enum_generator.rb:79 | Reading the table: a label found for a name is the label of an entry for that name. No label is found only when no entry has that name. |
| Builder.Assign | lib/ffi/enum_generator.rb:79 | `@enum_symbols[n] = l` puts the entry `n => l` in the table and leaves entries for other names where they were. The table keeps its length exactly when `n` was already a key. Otherwise it grows by one, with the new entry last. |
| Builder.AssignFinds | lib/ffi/enum_generator.rb:79 | After `@enum_symbols[n] = l`, looking up `n` gives `l`. |
| Builder.LookupAssign | lib/ffi/enum_generator.rb:79 | Hash assignment keeps keys unique. It leaves every other key's value unchanged and keeps the key order. A new key is appended at the end. |
| Builder.Symbol | lib/ffi/enum_generator.rb:77-80 | `symbol` returns the given label, or the name itself when no label is given. The table then maps the name to that label. The header list is unchanged. |
| Builder.SymbolFrame | lib/ffi/enum_generator.rb:77-79 | `symbol` keeps the table free of repeated keys and changes no other name's label. A known name keeps its position. A new name goes last. |
| Builder.Flatten | lib/ffi/enum_generator.rb:93 | Every header name passed directly to `include` is among the flattened headers. |
| Builder.FlattenAppend | lib/ffi/enum_generator.rb:93 | Flattening distributes over concatenation of argument lists. |
| Builder.FlattenOfHeaders | lib/ffi/enum_generator.rb:93 | A list of plain header names flattens to those names, in order. |
| Builder.FlattenNested | lib/ffi/enum_generator.rb:92-93 | Wrapping all the arguments in one array (`include([a, b])` against `include(a, b)`) adds the same headers. |
| Builder.Include | lib/ffi/enum_generator.rb:92-94 | `include` returns the complete header list. That list is the old list followed by the flattened arguments. The symbol table is unchanged. |
| Builder.IncludeTwice | lib/ffi/enum_generator.rb:92-94 | Two `include` calls add what one call with both argument lists adds. |
| Builder.ApplyIncludes | lib/ffi/enum_generator.rb:92-94 | One builder call extends the header list by exactly the headers it includes. |
| Builder.RunIncludes | lib/ffi/enum_generator.rb:92-94 | Running a block extends the header list by every included header, in call order. |
| Builder.Run | lib/ffi/enum_generator.rb:65 | Running the block's builder calls only ever adds headers after the existing ones. The header list before the block is a prefix of the list after it. |
| Builder.RunLookup | lib/ffi/enum_generator.rb:77-80 | After a block, each name carries the label of its last registration in the block. A name the block never registers keeps its earlier label. |
| Builder.RunKeys | lib/ffi/enum_generator.rb:77-79 | After a block, the table's C names are the earlier names followed by each newly registered name, once, in the order of its first registration. Registering a name again does not move it. |
| Builder.RunValid | lib/ffi/enum_generator.rb:77-79 | A block never puts the same key in the table twice. |
| Builder.New | lib/ffi/enum_generator.rb:61-66 | Whatever the block does, the header list of a new generator starts with "stdio.h". |
| Builder.NewState | lib/ffi/enum_generator.rb:61-66 | After `new` with a block, the header list is "stdio.h" followed by all included headers, duplicates kept. Each name maps to its last registered label. The table lists each registered name once, in the order of its first registration, and has no repeated keys. |
| Builder.TwoSymbolsTable | lib/ffi/enum_generator.rb:77-79 | Two different names get one entry each, in registration order, even when their labels coincide. |
| Builder.ReregisterTable | lib/ffi/enum_generator.rb:77-79 | Registering `a`, then `b`, then `a` under `z` gives the entries `a => z` and `b => b`, in that order. |
| Probe.Puts | lib/ffi/enum_generator.rb:108 | `puts` writes its argument unchanged, adds at most one character, and always leaves the text ending in a newline. It leaves the text as it is exactly when it already ends in a newline. |
| Probe.Dedent | lib/ffi/enum_generator.rb:113 | The dedented text is never longer than the input, is shorter by a multiple of six characters, and leaves text that holds no tab unchanged. |
| Probe.DedentLines | lib/ffi/enum_generator.rb:113 | `gsub(/^\t{6}/, '')` keeps the number of lines. Each line loses six leading tabs when it starts with them and is otherwise unchanged. |
| Probe.DedentHeredoc | lib/ffi/enum_generator.rb:113-115 | Stripping the heredoc's six-tab indentation leaves exactly the printf statement and its newline. |
| Probe.Render | lib/ffi/enum_generator.rb:107-118 | When no header name, C name or label holds a newline, the `puts` calls write the probe source as its lines, each followed by a newline. |
| Probe.ProgramLinesShape | lib/ffi/enum_generator.rb:107-118 | The probe has includes + symbols + 6 lines, laid out in the source's order. |
| Probe.RenderLayout | lib/ffi/enum_generator.rb:107-118 | The rendered source, read line by line, holds these lines in order: one `#include <h>` per header, duplicates kept; a blank line, `int main(void)` and `{`; one `printf("<label> %d\n", <cname>);` per entry, in table order; then a blank line, `return 0;` and `}`. |
| Probe.BareProbe | lib/ffi/enum_generator.rb:107-118 | With one header and no symbols, the probe is that header's include line and an empty `main`, text for text. |
| Probe.FreshProbe | lib/ffi/enum_generator.rb:107-118 | With no `include` and no `symbol` calls, the probe is the bare stdio skeleton, text for text. |
| Lines.JoinWith | lib/ffi/enum_generator.rb:124 | `join("\n")` of one or more lines is as long as all the lines together plus one separator between each neighbouring pair. `FieldsOfJoinWith` states its inverse. |
| Lines.Fields | lib/ffi/enum_generator.rb:131 | The newline-separated fields hold no newline and join back to the input. |
| Lines.DropTrailingEmpty | lib/ffi/enum_generator.rb:131 | Only empty fields are dropped, and only at the end. What remains does not end with an empty field. |
| Lines.SplitLines | lib/ffi/enum_generator.rb:131 | `split("\n")` keeps a prefix of the newline-separated fields, and the last field it keeps is not empty. |
| Lines.SplitLinesNoNewline | lib/ffi/enum_generator.rb:131 | No line that `split("\n")` returns holds a newline. |
| Lines.SplitLinesDropsOnlyEmpty | lib/ffi/enum_generator.rb:131 | Every field that `split("\n")` leaves out is empty. |
| Lines.FieldsOfJoinWith | lib/ffi/enum_generator.rb:124 | Splitting at newlines undoes joining with newlines. |
| Lines.SplitJoinLines | lib/ffi/enum_generator.rb:131 | Splitting text written one line at a time gives back the lines, when none holds a newline and the last is not empty. |
| Lines.SplitJoinWith | lib/ffi/enum_generator.rb:124 | `split` undoes `join("\n")` under the same conditions. |
| Lines.SplitHeaderThenJoin | lib/ffi/enum_generator.rb:125 | A heading line followed by joined lines splits into the heading and those lines. |
| Decimal.NatDigits | lib/ffi/enum_generator.rb:114 | `%d` writes canonical digits (no leading zero) whose value is the number. |
| Decimal.Show | lib/ffi/enum_generator.rb:114 | `%d` writes a minus sign exactly for negative numbers, then the canonical digits of the absolute value. `ParseShow` reads it back. |
| Decimal.ParseInteger | lib/ffi/enum_generator.rb:133 | `Integer($2)` accepts exactly an optional sign followed by canonical decimal digits. |
| Decimal.CanonicalIsNatDigits | lib/ffi/enum_generator.rb:133 | Canonical digits are exactly the digits `%d` writes for their value. |
| Decimal.ParseShow | lib/ffi/enum_generator.rb:133 | Reading back what `%d` writes gives the number written, negatives included. |
| Decimal.ParseIntegerIsShow | lib/ffi/enum_generator.rb:133 | Every text `Integer` accepts here is the `%d` form of its value, that form with a leading plus, or "-0". |
| OutputParser.TokenLength | lib/ffi/enum_generator.rb:132 | `\S+` greedily takes the longest prefix without whitespace. |
| OutputParser.MatchLineIsRegex | lib/ffi/enum_generator.rb:132 | The match gives captures `(token, rest)` exactly when the line is a non-empty non-space token, one whitespace character and then `rest`. |
| OutputParser.MatchLine | lib/ffi/enum_generator.rb:132 | Any captures found are a decomposition the pattern allows. The pattern fails exactly when the line is empty, starts with whitespace, or contains none. |
| OutputParser.ParseLine | lib/ffi/enum_generator.rb:132-133 | A line read as `(token, v)` starts with the non-empty `token`, then one whitespace character, and `Integer` reads the rest of the line as `v`. |
| OutputParser.ParseLineFails | lib/ffi/enum_generator.rb:132-133 | A line is refused for not matching exactly when it is empty, starts with whitespace, or contains none. |
| OutputParser.ParseLineMeaning | lib/ffi/enum_generator.rb:132-133 | A line reads as `(token, v)` exactly when the pattern splits it into `token` and a remainder that `Integer` reads as `v`. |
| OutputParser.Alternate | lib/ffi/enum_generator.rb:133 | `a += [$1.to_sym, Integer($2)]` builds twice as many elements as lines. Each label sits at an even position, followed by its value. |
| OutputParser.ParseLines | lib/ffi/enum_generator.rb:131-134 | The `inject` succeeds exactly when every line parses, giving one pair per line in order. Otherwise it raises at the first failing line, with that line's index, text and reason. |
| OutputParser.ParseOutput | lib/ffi/enum_generator.rb:131-134 | A successful parse has two elements per output line. A failure names a line of the output that does not parse. Empty output parses to the empty array. |
| OutputParser.ParseOutputSuccess | lib/ffi/enum_generator.rb:131-134 | A successful parse has one label and one value per output line, in line order. Empty output gives the empty array. |
| OutputParser.ParseOutputFailure | lib/ffi/enum_generator.rb:131-134 | Parsing fails exactly when some line does not match or does not end in an integer. The error names the first such line and says which of the two went wrong. |
| Diagnostics.Indent | lib/ffi/enum_generator.rb:124 | The indented output has the compiler output's lines, in order, each prefixed by a tab. |
| Diagnostics.TabLinesShape | lib/ffi/enum_generator.rb:124 | Putting a tab in front of every line (the `map` block) keeps every line free of newlines and never leaves an empty last line, so `split` reads the lines back. |
| Diagnostics.HeadingThenTabLines | lib/ffi/enum_generator.rb:124-125 | A heading line followed by the tab-indented lines, joined, splits back into the heading and then each line with its tab. |
| Diagnostics.CompileErrorMessage | lib/ffi/enum_generator.rb:124-125 | The raised message is the heading line, then every compiler output line tab-indented, none dropped or merged. |
| EnumGenerator.Generate | lib/ffi/enum_generator.rb:103-135 | `generate` raises a compilation error exactly when the compiler rejects the probe. When it accepts it and every label reads back whole, the result has two elements per table entry. |
| EnumGenerator.ParsePrintedLine | lib/ffi/enum_generator.rb:132-133 | The line the printf statement prints for an entry parses back to that entry's label and value. |
| EnumGenerator.SplitProbeOutput | lib/ffi/enum_generator.rb:129-131 | The probe's output splits into exactly the printed lines. |
| EnumGenerator.ParseProbeOutput | lib/ffi/enum_generator.rb:129-134 | Parsing the probe's output gives every entry's label and value, alternately and in table order. |
| EnumGenerator.GenerateRoundTrip | lib/ffi/enum_generator.rb:103-135 | When the probe compiles, `generate` returns 2n elements for n entries. Element 2i is entry i's label and element 2i+1 is the value of its C name. |
| EnumGenerator.GenerateCompileFailure | lib/ffi/enum_generator.rb:121-126 | When the compiler rejects the probe, `generate` raises a compilation error: the heading, then every compiler output line tab-indented. |
| EnumGenerator.GenerateTwo | lib/ffi/enum_generator.rb:103-135 | For a two-entry table whose probe compiles, the result is the first label, its value, the second label, its value. |
| EnumGenerator.SharedLabelKeepsBoth | lib/ffi/enum_generator.rb:77-79 | Two C names registered under one label both appear in the result, in registration order. |
| EnumGenerator.ReregisterKeepsPosition | lib/ffi/enum_generator.rb:77-79 | A name registered again keeps its first position and takes its last label. |
| EnumGenerator.SymbolAndStringBothKept | lib/ffi/enum_generator.rb:77-79 | `symbol(:T)` and `symbol('T')` give two entries, and both print under the text `T`. |

## Left out

- Running `gcc` and checking `$?`: the compiler is a parameter from the source text to compiled-or-failed-with-output. Which programs compile is outside the model.
- Running the binary: its output is modelled as one `label value` line per entry, with the values supplied by `env`. The C `int` range and the meaning of the C names are not modelled.
- The temporary file, the binary path with the process id, `flush`, `File.unlink` and the Windows `.exe` suffix are file-system effects with no bearing on the result.
- `FFI::Library#generate_enum` and the `FFI::Enum` constructed from the array lie outside the generator.
- `@name` and `@prefix` are never assigned in the class, so they render as empty. Only the resulting heading text is modelled.
- Names are Ruby Symbols or Strings. Other objects answering `to_s`, and the distinction between `nil` and `false` labels (both fall back to the name), are not modelled.
- `include` arguments are header names or nested arrays of them. Recursive arrays, which make `flatten` raise, are not modelled.
- Decimal.ParseInteger: stricter than Ruby's `Integer()`. It rejects surrounding whitespace, underscores, `0x`/`0b`/`0o` prefixes and leading zeros, which Ruby reads as octal. Text printed by `%d` never contains them.
- Probe.RenderLayout: stated only for header names, C names and labels without newlines. With a newline inside, the line structure of the source changes, and the heredoc's `gsub` could also strip tabs inside the interpolated text.
- EnumGenerator.Generate: its success promise treats every label as printed verbatim. Labels holding `%`, `"` or `\` are changed by the C `printf`, and that is not modelled.
- EnumGenerator.GenerateRoundTrip: stated only for non-empty labels without whitespace. The pattern cannot read other labels back whole. Labels holding `%`, `"` or `\` change what the C `printf` prints, and that is not modelled.

=== FILE: builder.dfy ===
/**
 The builder half of `FFI::EnumGenerator`: the list of C headers to include and the
 symbol table, an insertion-ordered hash from a C name to the label the enum
 value gets on the Ruby side.
 */
module Builder {
  import opened Results

  /**
   A Ruby object used as a name. A Symbol and a String with the same text are
   different hash keys, but both print as their text.
   */
  datatype Name = Sym(text: string) | Str(text: string)

  /** One symbol-table entry: a C name and its Ruby label. */
  datatype Entry = Entry(cname: Name, rubyName: Name)

  /** An argument of `include`: a header name, or an array of further arguments. */
  datatype Arg = Header(file: string) | List(items: seq<Arg>)

  datatype Generator = Generator(includes: seq<string>, symbols: seq<Entry>)

  /** A builder call made inside the block given to `EnumGenerator.new`. */
  datatype Command =
    | DefineSymbol(name: Name, rubyName: Option<Name>)
    | AddInclude(args: seq<Arg>)

  const DefaultInclude: string := "stdio.h"

  /** The C names of a symbol table, in table order. */
  function Keys(es: seq<Entry>): seq<Name>
  {
    seq(|es|, i requires 0 <= i < |es| => es[i].cname)
  }

  /** A Ruby hash holds each key at most once. */
  predicate UniqueKeys(es: seq<Entry>)
  {
    forall i, j :: 0 <= i < j < |es| ==> es[i].cname != es[j].cname
  }

  predicate Valid(g: Generator)
  {
    UniqueKeys(g.symbols)
  }

  /** The position of the C name `n` in the table, if it is there. */
  function IndexOf(es: seq<Entry>, n: Name): (r: Option<nat>)
    ensures r.Some? ==> r.value < |es| && es[r.value].cname == n
    ensures r.Some? ==> forall j :: 0 <= j < r.value ==> es[j].cname != n
    ensures r.None? ==> forall j :: 0 <= j < |es| ==> es[j].cname != n
  {
    if |es| == 0 then None
    else if es[0].cname == n then Some(0)
    else
      match IndexOf(es[1..], n)
      case None => None
      case Some(i) => Some(i + 1)
  }

  /** `@enum_symbols[n]`: the label stored for the C name `n`, if any. */
  function Lookup(es: seq<Entry>, n: Name): (r: Option<Name>)
    ensures r.Some? ==> Entry(n, r.value) in es
    ensures r.None? ==> forall i :: 0 <= i < |es| ==> es[i].cname != n
  {
    match IndexOf(es, n)
    case None => None
    case Some(i) => Some(es[i].rubyName)
  }

  /**
   `@enum_symbols[n] = l`: an existing key keeps its position and only its label
   changes; a new key goes to the end.
   */
  function Assign(es: seq<Entry>, n: Name, l: Name): (r: seq<Entry>)
    ensures |es| <= |r| <= |es| + 1
    ensures Entry(n, l) in r
    ensures forall i :: 0 <= i < |es| && es[i].cname != n ==> r[i] == es[i]
    ensures |r| == |es| <==> exists i :: 0 <= i < |es| && es[i].cname == n
    ensures |r| == |es| + 1 ==> r[|es|] == Entry(n, l)
  {
    match IndexOf(es, n)
    case Some(i) =>
      var r := es[i := Entry(n, l)];
      assert es[i].cname == n && r[i] == Entry(n, l);
      r
    case None =>
      assert forall i :: 0 <= i < |es| ==> es[i].cname != n;
      es + [Entry(n, l)]
  }

  /** The key just assigned is found again, at the position `Assign` put it in. */
  lemma AssignFinds(es: seq<Entry>, n: Name, l: Name)
    ensures Lookup(Assign(es, n, l), n) == Some(l)
  {
    var r := Assign(es, n, l);
    match IndexOf(es, n)
    case Some(i) =>
      assert r[i].cname == n;
      assert IndexOf(r, n).Some? && IndexOf(r, n).value == i;
    case None =>
      assert r[|es|].cname == n;
      assert IndexOf(r, n).Some? && IndexOf(r, n).value == |es|;
  }

  /** In a table without repeated keys, the entry holding a key is the one `Lookup` reads. */
  lemma LookupAt(es: seq<Entry>, i: nat)
    requires UniqueKeys(es)
    requires i < |es|
    ensures Lookup(es, es[i].cname) == Some(es[i].rubyName)
  {
  }

  /**
   Seen as a hash, `Assign` maps `n` to `l` and leaves every other key as it was;
   the keys keep their order, and a new key is appended at the end.
   */
  lemma LookupAssign(es: seq<Entry>, n: Name, l: Name)
    requires UniqueKeys(es)
    ensures UniqueKeys(Assign(es, n, l))
    ensures forall k :: k != n ==> Lookup(Assign(es, n, l), k) == Lookup(es, k)
    ensures n in Keys(es) ==> Keys(Assign(es, n, l)) == Keys(es)
    ensures n !in Keys(es) ==> Keys(Assign(es, n, l)) == Keys(es) + [n]
  {
    var r := Assign(es, n, l);
    match IndexOf(es, n)
    case Some(i) =>
      assert Keys(es)[i] == n;
      assert Keys(r) == Keys(es);
      forall k | k != n
        ensures Lookup(r, k) == Lookup(es, k)
      {
        if IndexOf(es, k).Some? {
          LookupAt(es, IndexOf(es, k).value);
          LookupAt(r, IndexOf(es, k).value);
        } else {
          assert forall j :: 0 <= j < |r| ==> r[j].cname != k;
        }
      }
    case None =>
      assert Keys(r) == Keys(es) + [n];
      forall k | k != n
        ensures Lookup(r, k) == Lookup(es, k)
      {
        if IndexOf(es, k).Some? {
          LookupAt(es, IndexOf(es, k).value);
          LookupAt(r, IndexOf(es, k).value);
        } else {
          assert forall j :: 0 <= j < |r| ==> r[j].cname != k;
        }
      }
  }

  /**
   `EnumGenerator#initialize` before the block runs: only the standard I/O header is
   included and no name is registered.
   */
  function Fresh(): (r: Generator)
    ensures Valid(r)
    ensures r.includes == ["stdio.h"]
    ensures forall n :: Lookup(r.symbols, n) == None
  {
    Generator([DefaultInclude], [])
  }

  /**
   `symbol(name, ruby_name = nil)`: registers `name` under `ruby_name`, or under
   itself when no label is given, and returns the label.
   */
  function Symbol(g: Generator, name: Name, rubyName: Option<Name>): (r: (Generator, Name))
    ensures r.0.includes == g.includes
    ensures rubyName.None? ==> r.1 == name
    ensures rubyName.Some? ==> r.1 == rubyName.value
    ensures Lookup(r.0.symbols, name) == Some(r.1)
  {
    var rn := rubyName.GetOr(name);
    AssignFinds(g.symbols, name, rn);
    (Generator(g.includes, Assign(g.symbols, name, rn)), rn)
  }

  /**
   Registering a C name keeps the table free of repeated keys and touches only that
   name: every other name keeps its label and position, a name seen before keeps its
   position, and a new name goes last.
   */
  lemma SymbolFrame(g: Generator, name: Name, rubyName: Option<Name>)
    requires Valid(g)
    ensures Valid(Symbol(g, name, rubyName).0)
    ensures forall k :: k != name ==> Lookup(Symbol(g, name, rubyName).0.symbols, k) == Lookup(g.symbols, k)
    ensures name in Keys(g.symbols) ==> Keys(Symbol(g, name, rubyName).0.symbols) == Keys(g.symbols)
    ensures name !in Keys(g.symbols) ==> Keys(Symbol(g, name, rubyName).0.symbols) == Keys(g.symbols) + [name]
  {
    LookupAssign(g.symbols, name, rubyName.GetOr(name));
  }

  /** `Array#flatten` on the arguments of `include`: every header name, depth first. */
  function Flatten(args: seq<Arg>): (r: seq<string>)
    ensures forall i :: 0 <= i < |args| && args[i].Header? ==> args[i].file in r
  {
    if |args| == 0 then [] else FlattenArg(args[0]) + Flatten(args[1..])
  }

  function FlattenArg(a: Arg): seq<string>
  {
    match a
    case Header(f) => [f]
    case List(items) => Flatten(items)
  }

  /** Flattening distributes over concatenation of argument lists. */
  lemma {:induction false} FlattenAppend(a: seq<Arg>, b: seq<Arg>)
    ensures Flatten(a + b) == Flatten(a) + Flatten(b)
  {
    if |a| > 0 {
      assert (a + b)[1..] == a[1..] + b;
      FlattenAppend(a[1..], b);
    } else {
      assert a + b == b;
    }
  }

  /** An argument list that holds no arrays flattens to its header names, in order. */
  lemma {:induction false} FlattenOfHeaders(args: seq<Arg>)
    requires forall i :: 0 <= i < |args| ==> args[i].Header?
    ensures |Flatten(args)| == |args|
    ensures forall i :: 0 <= i < |args| ==> Flatten(args)[i] == args[i].file
  {
    if |args| > 0 {
      FlattenOfHeaders(args[1..]);
    }
  }

  /** Nesting the whole argument list in one more array changes nothing. */
  lemma FlattenNested(args: seq<Arg>)
    ensures Flatten([List(args)]) == Flatten(args)
  {
    assert Flatten([List(args)]) == FlattenArg(List(args)) + Flatten([]);
  }

  /**
   `include(*i)`: appends the flattened arguments after the existing headers and
   returns the complete list.
   */
  function Include(g: Generator, args: seq<Arg>): (r: (Generator, seq<string>))
    ensures r.0.symbols == g.symbols
    ensures r.1 == r.0.includes
    ensures |r.1| >= |g.includes| && r.1[..|g.includes|] == g.includes
    ensures r.1[|g.includes|..] == Flatten(args)
  {
    var all := g.includes + Flatten(args);
    assert all[|g.includes|..] == Flatten(args);
    (Generator(all, g.symbols), all)
  }

  /** Two calls to `include` add the same headers as one call with both argument lists. */
  lemma IncludeTwice(g: Generator, a: seq<Arg>, b: seq<Arg>)
    ensures Include(Include(g, a).0, b).0 == Include(g, a + b).0
  {
    FlattenAppend(a, b);
  }

  function Apply(g: Generator, c: Command): Generator
  {
    match c
    case DefineSymbol(n, l) => Symbol(g, n, l).0
    case AddInclude(args) => Include(g, args).0
  }

  /** Runs the builder calls of a block, in order; headers are only ever added after the existing ones. */
  function Run(g: Generator, block: seq<Command>): (r: Generator)
    ensures |g.includes| <= |r.includes| && r.includes[..|g.includes|] == g.includes
    decreases |block|
  {
    if |block| == 0 then g else Run(Apply(g, block[0]), block[1..])
  }

  /** `EnumGenerator.new { |gen| ... }`: a fresh generator handed to the block. */
  function New(block: seq<Command>): (r: Generator)
    ensures |r.includes| >= 1 && r.includes[0] == "stdio.h"
  {
    Run(Fresh(), block)
  }

  /** The headers one builder call adds: its flattened arguments if it is an `include`. */
  function CommandIncludes(c: Command): seq<string>
  {
    if c.AddInclude? then Flatten(c.args) else []
  }

  /** All headers the `include` calls of a block add, in call order. */
  function BlockIncludes(block: seq<Command>): seq<string>
  {
    if |block| == 0 then [] else CommandIncludes(block[0]) + BlockIncludes(block[1..])
  }

  /** The label the last `symbol` call naming `n` gives it, if one does. */
  function LastLabel(block: seq<Command>, n: Name): Option<Name>
  {
    if |block| == 0 then None
    else
      var later := LastLabel(block[1..], n);
      if later.Some? then later
      else if block[0].DefineSymbol? && block[0].name == n then Some(block[0].rubyName.GetOr(n))
      else None
  }

  /**
   The C names in table order after a block, starting from `keys`: each `symbol` call
   appends its name the first time the name is registered and changes nothing after.
   */
  function Registered(keys: seq<Name>, block: seq<Command>): seq<Name>
    decreases |block|
  {
    if |block| == 0 then keys
    else if block[0].DefineSymbol? && block[0].name !in keys then Registered(keys + [block[0].name], block[1..])
    else Registered(keys, block[1..])
  }

  lemma ApplyIncludes(g: Generator, c: Command)
    ensures Apply(g, c).includes == g.includes + CommandIncludes(c)
  {
    if c.AddInclude? {
      var all := Include(g, c.args).1;
      assert all == all[..|g.includes|] + all[|g.includes|..];
    }
  }

  lemma {:induction false} RunIncludes(g: Generator, block: seq<Command>)
    ensures Run(g, block).includes == g.includes + BlockIncludes(block)
    decreases |block|
  {
    if |block| > 0 {
      var g1 := Apply(g, block[0]);
      var x := CommandIncludes(block[0]);
      var rest := BlockIncludes(block[1..]);
      ApplyIncludes(g, block[0]);
      assert g1.includes == g.includes + x;
      RunIncludes(g1, block[1..]);
      assert Run(g, block) == Run(g1, block[1..]);
      assert BlockIncludes(block) == x + rest;
      assert (g.includes + x) + rest == g.includes + (x + rest);
    }
  }

  lemma {:induction false} RunLookup(g: Generator, block: seq<Command>, n: Name)
    requires Valid(g)
    ensures Lookup(Run(g, block).symbols, n) == (if LastLabel(block, n).Some? then LastLabel(block, n) else Lookup(g.symbols, n))
    decreases |block|
  {
    if |block| > 0 {
      if block[0].DefineSymbol? {
        SymbolFrame(g, block[0].name, block[0].rubyName);
      }
      RunLookup(Apply(g, block[0]), block[1..], n);
    }
  }

  lemma {:induction false} RunValid(g: Generator, block: seq<Command>)
    requires Valid(g)
    ensures Valid(Run(g, block))
    decreases |block|
  {
    if |block| > 0 {
      if block[0].DefineSymbol? {
        SymbolFrame(g, block[0].name, block[0].rubyName);
      }
      RunValid(Apply(g, block[0]), block[1..]);
    }
  }

  /** A block orders the table by first registration, as `Registered` does. */
  lemma {:induction false} RunKeys(g: Generator, block: seq<Command>)
    requires Valid(g)
    ensures Keys(Run(g, block).symbols) == Registered(Keys(g.symbols), block)
    decreases |block|
  {
    if |block| > 0 {
      var g1 := Apply(g, block[0]);
      if block[0].DefineSymbol? {
        SymbolFrame(g, block[0].name, block[0].rubyName);
      }
      RunKeys(g1, block[1..]);
    }
  }

  /**
   After the block the header list is "stdio.h" followed by every included header in
   call order, duplicates kept, and each C name carries the label of its last
   registration; names never registered are absent.
   */
  lemma NewState(block: seq<Command>, n: Name)
    ensures Valid(New(block))
    ensures New(block).includes == [DefaultInclude] + BlockIncludes(block)
    ensures Lookup(New(block).symbols, n) == LastLabel(block, n)
    ensures Keys(New(block).symbols) == Registered([], block)
  {
    RunKeys(Fresh(), block);
    assert Keys(Fresh().symbols) == [];
    RunValid(Fresh(), block);
    RunIncludes(Fresh(), block);
    RunLookup(Fresh(), block, n);
  }

  /**
   Two different C names registered one after the other get one entry each, in
   registration order, whether or not their labels coincide.
   */
  lemma TwoSymbolsTable(a: Name, la: Option<Name>, b: Name, lb: Option<Name>)
    requires a != b
    ensures New([DefineSymbol(a, la), DefineSymbol(b, lb)]).symbols == [Entry(a, la.GetOr(a)), Entry(b, lb.GetOr(b))]
  {
    var block := [DefineSymbol(a, la), DefineSymbol(b, lb)];
    var g1 := Apply(Fresh(), block[0]);
    assert g1.symbols == [Entry(a, la.GetOr(a))];
    assert IndexOf(g1.symbols, b) == None;
    var g2 := Apply(g1, block[1]);
    assert block[1..][1..] == [];
    assert Run(g1, block[1..]) == Run(g2, []) == g2;
    assert New(block) == Run(g1, block[1..]);
  }

  /**
   `a` registered, then `b`, then `a` again under the label `z`: the second
   registration relabels the first entry and `b` stays second.
   */
  lemma ReregisterTable(a: Name, b: Name, z: Name)
    requires a != b
    ensures New([DefineSymbol(a, None), DefineSymbol(b, None), DefineSymbol(a, Some(z))]).symbols == [Entry(a, z), Entry(b, b)]
  {
    var block := [DefineSymbol(a, None), DefineSymbol(b, None), DefineSymbol(a, Some(z))];
    var g1 := Apply(Fresh(), block[0]);
    assert g1.symbols == [Entry(a, a)];
    assert IndexOf(g1.symbols, b) == None;
    var g2 := Apply(g1, block[1]);
    assert g2.symbols == [Entry(a, a), Entry(b, b)];
    assert IndexOf(g2.symbols, a) == Some(0);
    var g3 := Apply(g2, block[2]);
    assert block[1..][1..] == [block[2]] && block[1..][1..][1..] == [];
    assert Run(g2, block[1..][1..]) == Run(g3, []) == g3;
    assert Run(g1, block[1..]) == Run(g2, block[1..][1..]);
    assert New(block) == Run(g1, block[1..]);
  }
}

=== FILE: decimal.dfy ===
/**
 Decimal integer text: what C's `printf("%d")` writes and the subset of Ruby's
 `Integer()` that reads it back (an optional sign and plain decimal digits).
 */
module Decimal {
  import opened Results

  predicate IsDigit(c: char)
  {
    '0' <= c <= '9'
  }

  predicate AllDigits(s: string)
  {
    forall i :: 0 <= i < |s| ==> IsDigit(s[i])
  }

  function DigitChar(d: nat): (c: char)
    requires d < 10
    ensures IsDigit(c)
  {
    ('0' as int + d) as char
  }

  function DigitValue(c: char): (d: nat)
    requires IsDigit(c)
    ensures d < 10 && DigitChar(d) == c
  {
    c as int - '0' as int
  }

  /** The number a string of decimal digits denotes, most significant digit first. */
  function DigitsValue(s: string): nat
    requires AllDigits(s)
  {
    if |s| == 0 then 0 else DigitsValue(s[..|s| - 1]) * 10 + DigitValue(s[|s| - 1])
  }

  /** Digits with no superfluous leading zero: "0", or a string starting with 1-9. */
  predicate Canonical(s: string)
  {
    |s| > 0 && AllDigits(s) && (s[0] == '0' ==> |s| == 1)
  }

  /** The decimal digits of `n`, as `printf("%d")` writes a non-negative int. */
  function NatDigits(n: nat): (r: string)
    ensures Canonical(r)
    ensures DigitsValue(r) == n
  {
    if n < 10 then
      [DigitChar(n)]
    else
      var r := NatDigits(n / 10) + [DigitChar(n % 10)];
      assert r[..|r| - 1] == NatDigits(n / 10);
      r
  }

  /** `printf("%d")` of `n`: a minus sign for negative values, then the digits. */
  function Show(n: int): (r: string)
    ensures |r| > 0
    ensures r[0] == '-' <==> n < 0
    ensures n < 0 ==> Canonical(r[1..]) && DigitsValue(r[1..]) == -n
    ensures n >= 0 ==> Canonical(r) && DigitsValue(r) == n
  {
    if n < 0 then
      var r := "-" + NatDigits(-n);
      assert r[1..] == NatDigits(-n);
      r
    else NatDigits(n)
  }

  /** Printed integers consist of digits and possibly a minus sign, nothing else. */
  lemma ShowChars(n: int)
    ensures forall i :: 0 <= i < |Show(n)| ==> IsDigit(Show(n)[i]) || Show(n)[i] == '-'
  {
  }

  /** Reads an optionally signed decimal; `None` where the text is not one. */
  function ParseInteger(s: string): (r: Option<int>)
    ensures r.Some? <==> (Canonical(s) || (|s| > 1 && (s[0] == '-' || s[0] == '+') && Canonical(s[1..])))
  {
    if |s| > 0 && (s[0] == '-' || s[0] == '+') then
      if Canonical(s[1..]) then
        var v: int := DigitsValue(s[1..]);
        Some(if s[0] == '-' then -v else v)
      else None
    else if Canonical(s) then Some(DigitsValue(s))
    else None
  }

  /** A leading digit other than zero makes the value positive. */
  lemma {:induction false} LeadingNonzeroPositive(s: string)
    requires |s| > 0 && AllDigits(s) && s[0] != '0'
    ensures DigitsValue(s) > 0
  {
    if |s| > 1 {
      LeadingNonzeroPositive(s[..|s| - 1]);
    }
  }

  /** Canonical digits are exactly the digits `printf` writes for their value. */
  lemma {:induction false} CanonicalIsNatDigits(s: string)
    requires Canonical(s)
    ensures NatDigits(DigitsValue(s)) == s
  {
    if |s| > 1 {
      var p := s[..|s| - 1];
      assert Canonical(p);
      LeadingNonzeroPositive(p);
      CanonicalIsNatDigits(p);
      var v := DigitsValue(s);
      assert v / 10 == DigitsValue(p) && v % 10 == DigitValue(s[|s| - 1]);
      assert s == p + [s[|s| - 1]];
    }
  }

  /** Reading back what `printf("%d")` writes gives the number written. */
  lemma ParseShow(n: int)
    ensures ParseInteger(Show(n)) == Some(n)
  {
    if n < 0 {
      assert Show(n)[1..] == NatDigits(-n);
    }
  }

  /**
   The converse: every accepted text is the printed form of its value, possibly
   with an explicit plus sign, or the one other spelling "-0" of zero.
   */
  lemma ParseIntegerIsShow(s: string, n: int)
    requires ParseInteger(s) == Some(n)
    ensures s == Show(n) || s == "+" + Show(n) || (n == 0 && s == "-0")
  {
    if |s| > 0 && (s[0] == '-' || s[0] == '+') {
      var t := s[1..];
      CanonicalIsNatDigits(t);
      assert s == [s[0]] + t;
      if s[0] == '-' && n != 0 {
        assert Show(n) == "-" + t;
      }
    } else {
      CanonicalIsNatDigits(s);
    }
  }
}

=== FILE: diagnostics.dfy ===
/**
 The message raised when the probe does not compile: a fixed heading, then the
 compiler's output with every line indented by a tab.
 */
module Diagnostics {
  import opened Lines

  /** `"\t#{l}"` for every line. */
  function TabLines(ls: seq<string>): seq<string>
  {
    seq(|ls|, i requires 0 <= i < |ls| => "\t" + ls[i])
  }

  /**
   `output.split("\n").map { |l| "\t#{l}" }.join "\n"`: the compiler output, line for
   line, each line preceded by a tab.
   */
  function Indent(output: string): (r: string)
    ensures |SplitLines(r)| == |SplitLines(output)|
    ensures forall i :: 0 <= i < |SplitLines(output)| ==> SplitLines(r)[i] == "\t" + SplitLines(output)[i]
  {
    SplitLinesNoNewline(output);
    TabLinesShape(SplitLines(output));
    SplitJoinWith(TabLines(SplitLines(output)));
    JoinWith(TabLines(SplitLines(output)))
  }

  /** The heading of the error; the `@prefix` it interpolates is never set and renders empty. */
  const Heading: string := "Compilation error generating constants :"

  /**
   The raised message reads as the heading line followed by the compiler's lines, each
   indented by a tab, so every diagnostic survives and none is merged with the heading.
   */
  function CompileErrorMessage(output: string): (r: string)
    ensures |SplitLines(r)| == 1 + |SplitLines(output)|
    ensures SplitLines(r)[0] == "Compilation error generating constants :"
    ensures forall i :: 0 <= i < |SplitLines(output)| ==> SplitLines(r)[i + 1] == "\t" + SplitLines(output)[i]
  {
    SplitLinesNoNewline(output);
    HeadingIsOneLine();
    HeadingThenTabLines(Heading, SplitLines(output));
    Heading + "\n" + Indent(output)
  }

  /** The heading is one non-empty line; kept apart so the check of the literal stays small. */
  lemma HeadingIsOneLine()
    ensures Heading != "" && NoNewline(Heading)
  {
    forall i | 0 <= i < |Heading|
      ensures Heading[i] != '\n'
    {
    }
  }

  /** A heading followed by tab-indented lines splits into the heading and those lines. */
  lemma HeadingThenTabLines(h: string, ls: seq<string>)
    requires h != "" && NoNewline(h)
    requires AllNoNewline(ls)
    ensures var r := h + "\n" + JoinWith(TabLines(ls));
      && |SplitLines(r)| == 1 + |ls|
      && SplitLines(r)[0] == h
      && forall i :: 0 <= i < |ls| ==> SplitLines(r)[i + 1] == "\t" + ls[i]
  {
    var ts := TabLines(ls);
    TabLinesShape(ls);
    SplitHeaderThenJoin(h, ts);
    var sr := SplitLines(h + "\n" + JoinWith(ts));
    forall i | 0 <= i < |ls|
      ensures sr[i + 1] == "\t" + ls[i]
    {
      assert sr[i + 1] == ts[i];
    }
  }

  lemma TabLinesShape(ls: seq<string>)
    requires AllNoNewline(ls)
    ensures AllNoNewline(TabLines(ls))
    ensures |TabLines(ls)| > 0 ==> TabLines(ls)[|ls| - 1] != ""
  {
    var ts := TabLines(ls);
    forall i | 0 <= i < |ts|
      ensures NoNewline(ts[i])
    {
      assert ts[i] == "\t" + ls[i];
    }
    if |ts| > 0 {
      assert ts[|ls| - 1][0] == '\t';
    }
  }
}

=== FILE: generator.dfy ===
/**
 `EnumGenerator#generate`: render the probe, compile it, run it and parse what it
 prints. Compiling and running are outside the model: the compiler is a parameter
 judging the rendered source, and the running probe prints, for each table entry in
 order, the entry's label, a space and the value `env` gives its C name.
 */
module EnumGenerator {
  import opened Results
  import opened Lines
  import opened Decimal
  import opened Builder
  import opened Probe
  import opened OutputParser
  import opened Diagnostics

  /** What the compiler makes of the probe: success, or failure with its combined output. */
  datatype Compilation = Compiled | CompileFailed(diagnostics: string)

  /** The two ways `generate` raises. */
  datatype GenerateError =
    | CompilationError(message: string)
    | MalformedOutput(error: ParseError)

  /** The line `printf("<name> %d\n", <cname>)` prints. */
  function PrintedLine(e: Entry, env: string -> int): string
  {
    e.rubyName.text + " " + Show(env(e.cname.text))
  }

  function PrintedLines(es: seq<Entry>, env: string -> int): seq<string>
  {
    seq(|es|, i requires 0 <= i < |es| => PrintedLine(es[i], env))
  }

  /** The standard output of the compiled probe: one printed line per entry, in table order. */
  function ProbeOutput(es: seq<Entry>, env: string -> int): string
  {
    JoinLines(PrintedLines(es, env))
  }

  /**
   `generate`: a compilation error exactly when the compiler rejects the probe; when it
   accepts it and every label reads back whole, one label and one value per entry.
   */
  function Generate(g: Generator, compile: string -> Compilation, env: string -> int): (r: Result<seq<Value>, GenerateError>)
    ensures (r.Failure? && r.error.CompilationError?) <==> compile(Render(g)).CompileFailed?
    ensures compile(Render(g)) == Compiled && ReadableLabels(g.symbols) ==> r.Success? && |r.value| == 2 * |g.symbols|
  {
    assert compile(Render(g)) == Compiled && ReadableLabels(g.symbols) ==>
      ParseOutput(ProbeOutput(g.symbols, env)).Success? && |ParseOutput(ProbeOutput(g.symbols, env)).value| == 2 * |g.symbols| by {
      if compile(Render(g)) == Compiled && ReadableLabels(g.symbols) {
        ParseProbeOutput(g.symbols, env);
      }
    }
    match compile(Render(g))
    case CompileFailed(d) => Failure(CompilationError(CompileErrorMessage(d)))
    case Compiled =>
      match ParseOutput(ProbeOutput(g.symbols, env))
      case Failure(e) => Failure(MalformedOutput(e))
      case Success(vs) => Success(vs)
  }

  /** Labels the output pattern reads back whole: non-empty and free of whitespace. */
  predicate ReadableLabels(es: seq<Entry>)
  {
    forall i :: 0 <= i < |es| ==> |es[i].rubyName.text| > 0 && NoSpace(es[i].rubyName.text)
  }

  /** Each printed line parses back to its entry's label and value. */
  lemma {:induction false} ParsePrintedLine(e: Entry, env: string -> int)
    requires |e.rubyName.text| > 0 && NoSpace(e.rubyName.text)
    ensures NoNewline(PrintedLine(e, env))
    ensures ParseLine(PrintedLine(e, env)) == Success((e.rubyName.text, env(e.cname.text)))
  {
    var l := PrintedLine(e, env);
    var name := e.rubyName.text;
    var digits := Show(env(e.cname.text));
    assert l[..|name|] == name;
    assert l[|name|] == ' ';
    assert l[|name| + 1..] == digits;
    assert NoNewline(l) by {
      ShowChars(env(e.cname.text));
      forall i | 0 <= i < |l|
        ensures l[i] != '\n'
      {
        if i < |name| {
          assert l[i] == name[i];
        } else if i > |name| {
          assert l[i] == digits[i - |name| - 1];
        }
      }
    }
    ParseShow(env(e.cname.text));
    assert RegexMatch(l, name, digits);
    ParseLineMeaning(l, name, env(e.cname.text));
  }

  /** The probe's output splits back into exactly the printed lines. */
  lemma {:induction false} SplitProbeOutput(es: seq<Entry>, env: string -> int)
    requires ReadableLabels(es)
    ensures SplitLines(ProbeOutput(es, env)) == PrintedLines(es, env)
  {
    var ls := PrintedLines(es, env);
    forall i | 0 <= i < |es|
      ensures NoNewline(ls[i])
    {
      ParsePrintedLine(es[i], env);
    }
    if |es| > 0 {
      assert ls[|es| - 1][0] == es[|es| - 1].rubyName.text[0];
    }
    SplitJoinLines(ls);
  }

  /**
   Parsing what the probe prints gives back every entry's label and value, alternately
   and in table order.
   */
  lemma {:induction false} ParseProbeOutput(es: seq<Entry>, env: string -> int)
    requires ReadableLabels(es)
    ensures ParseOutput(ProbeOutput(es, env)).Success?
    ensures |ParseOutput(ProbeOutput(es, env)).value| == 2 * |es|
    ensures forall i :: 0 <= i < |es| ==>
      && ParseOutput(ProbeOutput(es, env)).value[2 * i] == Label(es[i].rubyName.text)
      && ParseOutput(ProbeOutput(es, env)).value[2 * i + 1] == Number(env(es[i].cname.text))
  {
    var out := ProbeOutput(es, env);
    var ls := PrintedLines(es, env);
    SplitProbeOutput(es, env);
    forall i | 0 <= i < |es|
      ensures ParseLine(ls[i]) == Success((es[i].rubyName.text, env(es[i].cname.text)))
    {
      ParsePrintedLine(es[i], env);
    }
    assert ParseLines(ParseLine, ls, 0).Success?;
    ParseOutputSuccess(out);
  }

  /**
   Round trip: when the probe compiles and every label is non-empty and free of
   whitespace, `generate` returns the labels and values alternately, one pair per
   table entry and in table order; the label at each even position is the entry's
   label and the value after it is the integer the entry's C name stands for.
   */
  lemma {:induction false} GenerateRoundTrip(g: Generator, compile: string -> Compilation, env: string -> int)
    requires ReadableLabels(g.symbols)
    requires compile(Render(g)) == Compiled
    ensures Generate(g, compile, env).Success?
    ensures |Generate(g, compile, env).value| == 2 * |g.symbols|
    ensures forall i :: 0 <= i < |g.symbols| ==>
      && Generate(g, compile, env).value[2 * i] == Label(g.symbols[i].rubyName.text)
      && Generate(g, compile, env).value[2 * i + 1] == Number(env(g.symbols[i].cname.text))
  {
    ParseProbeOutput(g.symbols, env);
  }

  /**
   When the compiler rejects the probe, `generate` raises a compilation error whose
   message is the heading followed by every line of the compiler's output, tab-indented.
   */
  lemma {:induction false} GenerateCompileFailure(g: Generator, compile: string -> Compilation, env: string -> int)
    requires compile(Render(g)).CompileFailed?
    ensures Generate(g, compile, env).Failure? && Generate(g, compile, env).error.CompilationError?
    ensures var m := Generate(g, compile, env).error.message;
      var d := compile(Render(g)).diagnostics;
      && |SplitLines(m)| == 1 + |SplitLines(d)|
      && SplitLines(m)[0] == "Compilation error generating constants :"
      && forall i :: 0 <= i < |SplitLines(d)| ==> SplitLines(m)[i + 1] == "\t" + SplitLines(d)[i]
  {
  }

  /** For a two-entry table, the round trip spelled out element by element. */
  lemma {:induction false} GenerateTwo(g: Generator, compile: string -> Compilation, env: string -> int)
    requires |g.symbols| == 2
    requires ReadableLabels(g.symbols)
    requires compile(Render(g)) == Compiled
    ensures Generate(g, compile, env) == Success([
      Label(g.symbols[0].rubyName.text), Number(env(g.symbols[0].cname.text)),
      Label(g.symbols[1].rubyName.text), Number(env(g.symbols[1].cname.text))])
  {
    var r := Generate(g, compile, env);
    var s0, s1 := g.symbols[0], g.symbols[1];
    assert r.Success? && |r.value| == 4
      && r.value[0] == Label(s0.rubyName.text) && r.value[1] == Number(env(s0.cname.text))
      && r.value[2] == Label(s1.rubyName.text) && r.value[3] == Number(env(s1.cname.text)) by {
      GenerateRoundTrip(g, compile, env);
    }
    FourElements(r.value);
  }

  /**
   A four-element sequence is the display of its elements; a lemma of its own so that
   the comparison is made without the facts about `Generate` in view.
   */
  lemma FourElements<T>(v: seq<T>)
    requires |v| == 4
    ensures v == [v[0], v[1], v[2], v[3]]
  {
  }

  /**
   The table is keyed by the C name, not by the label: two C names registered under
   one label are both kept and both appear in the result, in registration order.
   */
  lemma {:induction false} SharedLabelKeepsBoth(a: Name, b: Name, x: Name, compile: string -> Compilation, env: string -> int)
    requires a != b
    requires |x.text| > 0 && NoSpace(x.text)
    requires compile(Render(New([DefineSymbol(a, Some(x)), DefineSymbol(b, Some(x))]))) == Compiled
    ensures Generate(New([DefineSymbol(a, Some(x)), DefineSymbol(b, Some(x))]), compile, env)
         == Success([Label(x.text), Number(env(a.text)), Label(x.text), Number(env(b.text))])
  {
    var g := New([DefineSymbol(a, Some(x)), DefineSymbol(b, Some(x))]);
    TwoSymbolsTable(a, Some(x), b, Some(x));
    assert g.symbols == [Entry(a, x), Entry(b, x)];
    GenerateTwo(g, compile, env);
  }

  /**
   Registering a C name again replaces its label in place: the entry keeps the
   position of its first registration and the label of its last.
   */
  lemma {:induction false} ReregisterKeepsPosition(a: Name, b: Name, z: Name, compile: string -> Compilation, env: string -> int)
    requires a != b
    requires |z.text| > 0 && NoSpace(z.text) && |b.text| > 0 && NoSpace(b.text)
    requires compile(Render(New([DefineSymbol(a, None), DefineSymbol(b, None), DefineSymbol(a, Some(z))]))) == Compiled
    ensures Generate(New([DefineSymbol(a, None), DefineSymbol(b, None), DefineSymbol(a, Some(z))]), compile, env)
         == Success([Label(z.text), Number(env(a.text)), Label(b.text), Number(env(b.text))])
  {
    var g := New([DefineSymbol(a, None), DefineSymbol(b, None), DefineSymbol(a, Some(z))]);
    ReregisterTable(a, b, z);
    assert g.symbols == [Entry(a, z), Entry(b, b)];
    GenerateTwo(g, compile, env);
  }

  /**
   A Symbol and a String with the same text are different keys: both are kept and
   both are printed, under the same text.
   */
  lemma {:induction false} SymbolAndStringBothKept(t: string, compile: string -> Compilation, env: string -> int)
    requires |t| > 0 && NoSpace(t)
    requires compile(Render(New([DefineSymbol(Sym(t), None), DefineSymbol(Str(t), None)]))) == Compiled
    ensures New([DefineSymbol(Sym(t), None), DefineSymbol(Str(t), None)]).symbols == [Entry(Sym(t), Sym(t)), Entry(Str(t), Str(t))]
    ensures Generate(New([DefineSymbol(Sym(t), None), DefineSymbol(Str(t), None)]), compile, env)
         == Success([Label(t), Number(env(t)), Label(t), Number(env(t))])
  {
    var g := New([DefineSymbol(Sym(t), None), DefineSymbol(Str(t), None)]);
    TwoSymbolsTable(Sym(t), None, Str(t), None);
    assert g.symbols == [Entry(Sym(t), Sym(t)), Entry(Str(t), Str(t))];
    GenerateTwo(g, compile, env);
  }
}

=== FILE: lines.dfy ===
/**
 Line handling on Ruby strings as the enum generator uses it: `String#split("\n")`,
 `Array#join("\n")`, and text written line by line with a newline after each line.
 */
module Lines {

  predicate NoNewline(s: string)
  {
    '\n' !in s
  }

  predicate AllNoNewline(ls: seq<string>)
  {
    forall i :: 0 <= i < |ls| ==> NoNewline(ls[i])
  }

  /** The number of characters in all the lines together. */
  function TotalLength(ls: seq<string>): nat
  {
    if |ls| == 0 then 0 else |ls[0]| + TotalLength(ls[1..])
  }

  /** `ls.join("\n")`: the lines separated, not terminated, by newlines. */
  function JoinWith(ls: seq<string>): (r: string)
    ensures |ls| > 0 ==> |r| == TotalLength(ls) + |ls| - 1
  {
    if |ls| == 0 then ""
    else if |ls| == 1 then ls[0]
    else ls[0] + "\n" + JoinWith(ls[1..])
  }

  /** Every line followed by a newline, as a file written one line at a time. */
  function JoinLines(ls: seq<string>): string
  {
    if |ls| == 0 then "" else ls[0] + "\n" + JoinLines(ls[1..])
  }

  /** The pieces between newlines: a string with k newlines has k + 1 fields. */
  function Fields(s: string): (r: seq<string>)
    ensures |r| >= 1
    ensures AllNoNewline(r)
    ensures JoinWith(r) == s
  {
    if |s| == 0 then [""]
    else
      var rest := Fields(s[1..]);
      if s[0] == '\n' then
        [""] + rest
      else
        var r := [[s[0]] + rest[0]] + rest[1..];
        assert |rest| > 1 ==> JoinWith(rest) == rest[0] + "\n" + JoinWith(rest[1..]);
        assert |rest| > 1 ==> JoinWith(r) == ([s[0]] + rest[0]) + "\n" + JoinWith(rest[1..]);
        r
  }

  /** Drops the empty fields at the end, which Ruby's `split` discards. */
  function DropTrailingEmpty(fs: seq<string>): (r: seq<string>)
    ensures |r| <= |fs| && r == fs[..|r|]
    ensures forall i :: |r| <= i < |fs| ==> fs[i] == ""
    ensures |r| > 0 ==> r[|r| - 1] != ""
  {
    if |fs| > 0 && fs[|fs| - 1] == "" then DropTrailingEmpty(fs[..|fs| - 1]) else fs
  }

  /** `s.split("\n")`: the fields of `s` without the trailing empty ones. */
  function SplitLines(s: string): (r: seq<string>)
    ensures |r| > 0 ==> r[|r| - 1] != ""
    ensures |r| <= |Fields(s)| && r == Fields(s)[..|r|]
  {
    DropTrailingEmpty(Fields(s))
  }

  /** No line `split` returns holds a newline. */
  lemma SplitLinesNoNewline(s: string)
    ensures AllNoNewline(SplitLines(s))
  {
  }

  /** The fields `split` leaves out are all empty. */
  lemma SplitLinesDropsOnlyEmpty(s: string)
    ensures forall i :: |SplitLines(s)| <= i < |Fields(s)| ==> Fields(s)[i] == ""
  {
  }

  lemma {:induction false} FieldsOfLine(a: string)
    requires NoNewline(a)
    ensures Fields(a) == [a]
  {
    if |a| > 0 {
      FieldsOfLine(a[1..]);
      assert [a[0]] + a[1..] == a;
    }
  }

  /** A newline-free prefix followed by a newline becomes the first field. */
  lemma {:induction false} FieldsOfLineThen(a: string, rest: string)
    requires NoNewline(a)
    ensures Fields(a + "\n" + rest) == [a] + Fields(rest)
  {
    var s := a + "\n" + rest;
    if |a| == 0 {
      assert s[1..] == rest;
    } else {
      assert s[1..] == a[1..] + "\n" + rest;
      FieldsOfLineThen(a[1..], rest);
      assert [a[0]] + a[1..] == a;
    }
  }

  /** Splitting at newlines undoes joining with newlines: the partner of `Fields`. */
  lemma {:induction false} FieldsOfJoinWith(ls: seq<string>)
    requires |ls| >= 1
    requires AllNoNewline(ls)
    ensures Fields(JoinWith(ls)) == ls
  {
    if |ls| == 1 {
      FieldsOfLine(ls[0]);
    } else {
      assert AllNoNewline(ls[1..]) by {
        forall i | 0 <= i < |ls| - 1 ensures NoNewline(ls[1..][i]) {
          assert ls[1..][i] == ls[i + 1];
        }
      }
      FieldsOfJoinWith(ls[1..]);
      assert JoinWith(ls) == ls[0] + "\n" + JoinWith(ls[1..]);
      FieldsOfLineThen(ls[0], JoinWith(ls[1..]));
      assert [ls[0]] + ls[1..] == ls;
    }
  }

  lemma {:induction false} JoinLinesIsJoinWith(ls: seq<string>)
    ensures JoinLines(ls) == JoinWith(ls + [""])
  {
    if |ls| > 0 {
      JoinLinesIsJoinWith(ls[1..]);
      assert (ls + [""])[1..] == ls[1..] + [""];
    }
  }

  lemma {:induction false} JoinLinesAppend(a: seq<string>, b: seq<string>)
    ensures JoinLines(a + b) == JoinLines(a) + JoinLines(b)
  {
    if |a| > 0 {
      JoinLinesAppend(a[1..], b);
      assert (a + b)[1..] == a[1..] + b;
    } else {
      assert a + b == b;
    }
  }

  /** One empty field after lines whose last is not empty is exactly what gets dropped. */
  lemma DropOneTrailingEmpty(ls: seq<string>)
    requires |ls| > 0 ==> ls[|ls| - 1] != ""
    ensures DropTrailingEmpty(ls + [""]) == ls
  {
    assert (ls + [""])[..|ls|] == ls;
  }

  lemma AppendEmptyNoNewline(ls: seq<string>)
    requires AllNoNewline(ls)
    ensures AllNoNewline(ls + [""])
  {
    var fs := ls + [""];
    forall i | 0 <= i < |fs| ensures NoNewline(fs[i]) {
      if i < |ls| { assert fs[i] == ls[i]; }
    }
  }

  /**
   Reading back lines written one per line gives the same lines, as long as none
   holds a newline and the last is not empty (`split` would drop it).
   */
  lemma {:induction false} SplitJoinLines(ls: seq<string>)
    requires AllNoNewline(ls)
    requires |ls| > 0 ==> ls[|ls| - 1] != ""
    ensures SplitLines(JoinLines(ls)) == ls
  {
    JoinLinesIsJoinWith(ls);
    AppendEmptyNoNewline(ls);
    FieldsOfJoinWith(ls + [""]);
    DropOneTrailingEmpty(ls);
  }

  /** Splitting undoes `join("\n")` when no line holds a newline and the last is not empty. */
  lemma {:induction false} SplitJoinWith(ls: seq<string>)
    requires AllNoNewline(ls)
    requires |ls| > 0 ==> ls[|ls| - 1] != ""
    ensures SplitLines(JoinWith(ls)) == ls
  {
    if |ls| > 0 {
      FieldsOfJoinWith(ls);
    }
  }

  /** A header line followed by joined lines splits into the header and those lines. */
  lemma {:induction false} SplitHeaderThenJoin(h: string, ls: seq<string>)
    requires h != "" && NoNewline(h)
    requires AllNoNewline(ls)
    requires |ls| > 0 ==> ls[|ls| - 1] != ""
    ensures SplitLines(h + "\n" + JoinWith(ls)) == [h] + ls
  {
    FieldsOfLineThen(h, JoinWith(ls));
    if |ls| > 0 {
      FieldsOfJoinWith(ls);
    } else {
      assert Fields(h + "\n" + JoinWith(ls)) == [h, ""];
    }
  }
}

=== FILE: parser.dfy ===
/**
 Reading the probe's standard output back: the text is split into lines, each line
 is matched against `^(\S+)\s(.*)$`, and every line contributes its first token (as
 a Ruby Symbol) and the integer after it to a flat alternating array.
 */
module OutputParser {
  import opened Results
  import opened Lines
  import opened Decimal

  /** Ruby's `\s`: space, tab, line feed, vertical tab, form feed, carriage return. */
  predicate IsSpace(c: char)
  {
    c == ' ' || c == '\t' || c == '\n' || c == '\U{000B}' || c == '\U{000C}' || c == '\r'
  }

  predicate NoSpace(s: string)
  {
    forall i :: 0 <= i < |s| ==> !IsSpace(s[i])
  }

  /** The length of the longest prefix of `l` without whitespace. */
  function TokenLength(l: string): (k: nat)
    ensures k <= |l|
    ensures forall i :: 0 <= i < k ==> !IsSpace(l[i])
    ensures k < |l| ==> IsSpace(l[k])
  {
    if |l| == 0 || IsSpace(l[0]) then 0 else 1 + TokenLength(l[1..])
  }

  /** The captures of `^(\S+)\s(.*)$` on a line, or `None` when it does not match. */
  function MatchLine(l: string): (r: Option<(string, string)>)
    ensures r.Some? ==> RegexMatch(l, r.value.0, r.value.1)
    ensures r.None? <==> (|l| == 0 || IsSpace(l[0]) || NoSpace(l))
  {
    var k := TokenLength(l);
    if k == 0 || k == |l| then None else Some((l[..k], l[k + 1..]))
  }

  /**
   The regular expression read declaratively on a newline-free line: a non-empty run
   of non-whitespace, one whitespace character, then anything.
   */
  predicate RegexMatch(l: string, token: string, rest: string)
  {
    && |token| > 0
    && NoSpace(token)
    && |l| == |token| + 1 + |rest|
    && l[..|token|] == token
    && IsSpace(l[|token|])
    && l[|token| + 1..] == rest
  }

  /** `MatchLine` finds a decomposition exactly when the regular expression has one, and the same one. */
  lemma MatchLineIsRegex(l: string, token: string, rest: string)
    requires NoNewline(l)
    ensures MatchLine(l) == Some((token, rest)) <==> RegexMatch(l, token, rest)
  {
  }

  /** An element of the array `generate` returns. */
  datatype Value = Label(symbol: string) | Number(n: int)

  /** Why a line of output was refused: where Ruby raises inside the `inject` block. */
  datatype LineError =
    | NoMatch    // `$1` is nil, so `$1.to_sym` raises
    | NotInteger // `Integer($2)` raises

  datatype ParseError = ParseError(line: nat, text: string, reason: LineError)

  /**
   A line reads as `(token, v)`: `token` is a non-empty prefix followed by one
   whitespace character, and `Integer` reads the rest of the line as `v`.
   */
  predicate ReadsAs(l: string, token: string, v: int)
  {
    && 0 < |token| < |l|
    && l[..|token|] == token
    && IsSpace(l[|token|])
    && ParseInteger(l[|token| + 1..]) == Some(v)
  }

  /** One output line: its label and value. */
  function ParseLine(l: string): (r: Result<(string, int), LineError>)
    ensures r.Success? ==> ReadsAs(l, r.value.0, r.value.1)
  {
    match MatchLine(l)
    case None => Failure(NoMatch)
    case Some((token, rest)) =>
      match ParseInteger(rest)
      case None => Failure(NotInteger)
      case Some(v) => Success((token, v))
  }

  /**
   A line is refused for not matching exactly when it is empty, starts with
   whitespace, or holds no whitespace at all.
   */
  lemma ParseLineFails(l: string)
    ensures ParseLine(l) == Failure(NoMatch) <==> (|l| == 0 || IsSpace(l[0]) || NoSpace(l))
  {
  }

  /** The alternating array `[label, value, label, value, ...]` of a list of pairs. */
  function Alternate(ps: seq<(string, int)>): (r: seq<Value>)
    ensures |r| == 2 * |ps|
    ensures forall i :: 0 <= i < |ps| ==> r[2 * i] == Label(ps[i].0) && r[2 * i + 1] == Number(ps[i].1)
  {
    if |ps| == 0 then []
    else
      var r := [Label(ps[0].0), Number(ps[0].1)] + Alternate(ps[1..]);
      assert forall i :: 1 <= i < |ps| ==> r[2 * i] == Alternate(ps[1..])[2 * (i - 1)];
      r
  }

  /**
   The `inject` over the lines from index `k` on, with `parse` reading one line:
   stops at the first line that does not parse, otherwise one pair per line in
   line order.
   */
  function ParseLines(parse: string -> Result<(string, int), LineError>, lines: seq<string>, k: nat): (r: Result<seq<(string, int)>, ParseError>)
    requires k <= |lines|
    ensures r.Success? <==> forall i :: k <= i < |lines| ==> parse(lines[i]).Success?
    ensures r.Success? ==> |r.value| == |lines| - k
    ensures r.Success? ==> forall i :: k <= i < |lines| ==> r.value[i - k] == parse(lines[i]).value
    ensures r.Failure? ==>
      && k <= r.error.line < |lines|
      && r.error.text == lines[r.error.line]
      && parse(r.error.text) == Failure(r.error.reason)
      && forall i :: k <= i < r.error.line ==> parse(lines[i]).Success?
    decreases |lines| - k
  {
    if k == |lines| then Success([])
    else
      match parse(lines[k])
      case Failure(e) => Failure(ParseError(k, lines[k], e))
      case Success(p) =>
        match ParseLines(parse, lines, k + 1)
        case Failure(e) => Failure(e)
        case Success(ps) => Success([p] + ps)
  }

  /** `output.split("\n").inject([]) { ... }`: the array `generate` returns, or the error it raises. */
  function ParseOutput(output: string): (r: Result<seq<Value>, ParseError>)
    ensures r.Success? ==> |r.value| == 2 * |SplitLines(output)|
    ensures r.Failure? ==>
      && r.error.line < |SplitLines(output)|
      && r.error.text == SplitLines(output)[r.error.line]
      && ParseLine(r.error.text).Failure?
    ensures output == "" ==> r == Success([])
  {
    match ParseLines(ParseLine, SplitLines(output), 0)
    case Failure(e) => Failure(e)
    case Success(ps) => Success(Alternate(ps))
  }

  /**
   A line parses to `(token, v)` exactly when the pattern splits it into `token`, one
   whitespace character and a remainder that reads as the integer `v`.
   */
  lemma ParseLineMeaning(l: string, token: string, v: int)
    requires NoNewline(l)
    ensures ParseLine(l) == Success((token, v)) <==> exists rest :: RegexMatch(l, token, rest) && ParseInteger(rest) == Some(v)
  {
    if ParseLine(l) == Success((token, v)) {
      var rest := MatchLine(l).value.1;
      MatchLineIsRegex(l, token, rest);
    }
    if exists rest :: RegexMatch(l, token, rest) && ParseInteger(rest) == Some(v) {
      var rest :| RegexMatch(l, token, rest) && ParseInteger(rest) == Some(v);
      MatchLineIsRegex(l, token, rest);
    }
  }

  /**
   A successful parse has one label and one value per output line, in line order,
   each pair being what `ParseLine` reads from that line; empty output parses to the
   empty array.
   */
  lemma ParseOutputSuccess(output: string)
    requires ParseOutput(output).Success?
    ensures |ParseOutput(output).value| == 2 * |SplitLines(output)|
    ensures forall i :: 0 <= i < |SplitLines(output)| ==>
      && ParseLine(SplitLines(output)[i]).Success?
      && ParseOutput(output).value[2 * i] == Label(ParseLine(SplitLines(output)[i]).value.0)
      && ParseOutput(output).value[2 * i + 1] == Number(ParseLine(SplitLines(output)[i]).value.1)
    ensures output == "" ==> ParseOutput(output).value == []
  {
    var ls := SplitLines(output);
    var ps := ParseLines(ParseLine, ls, 0).value;
    assert ParseOutput(output).value == Alternate(ps);
    forall i | 0 <= i < |ls|
      ensures ParseLine(ls[i]).Success? && ps[i] == ParseLine(ls[i]).value
    {
    }
  }

  /**
   Parsing never skips a line: it fails exactly when some line does not match the
   pattern or its remainder is not an integer, and the error names the first such line.
   */
  lemma ParseOutputFailure(output: string)
    ensures ParseOutput(output).Failure? <==>
      exists i :: 0 <= i < |SplitLines(output)| && ParseLine(SplitLines(output)[i]).Failure?
    ensures ParseOutput(output).Failure? ==>
      var e := ParseOutput(output).error;
      && e.line < |SplitLines(output)|
      && e.text == SplitLines(output)[e.line]
      && (e.reason == NoMatch <==> MatchLine(e.text).None?)
      && forall j :: 0 <= j < e.line ==> ParseLine(SplitLines(output)[j]).Success?
  {
  }
}

=== FILE: probe.dfy ===
/**
 The C source of the probe program that `generate` writes to a temporary file: one
 include directive per header, a `main` that prints every symbol's value with a
 label, and `return 0;`.
 */
module Probe {
  import opened Builder
  import opened Lines

  /** `IO#puts`: writes the string, then a newline unless it already ends with one. */
  function Puts(s: string): (r: string)
    ensures |s| <= |r| <= |s| + 1 && r[..|s|] == s
    ensures |r| > 0 && r[|r| - 1] == '\n'
    ensures r == s <==> |s| > 0 && s[|s| - 1] == '\n'
  {
    if |s| > 0 && s[|s| - 1] == '\n' then s else s + "\n"
  }

  /** The indentation of the heredoc in the generator's own source. */
  const HeredocIndent: string := "\t\t\t\t\t\t"

  /** `gsub(/^\t{6}/, '')`: removes six tabs at the start of every line. */
  function Dedent(s: string): (r: string)
    ensures |r| <= |s| && (|s| - |r|) % 6 == 0
    ensures '\t' !in s ==> r == s
  {
    DedentFrom(s, true)
  }

  function DedentFrom(s: string, atLineStart: bool): (r: string)
    ensures |r| <= |s| && (|s| - |r|) % 6 == 0
    ensures '\t' !in s ==> r == s
    decreases |s|
  {
    if |s| == 0 then ""
    else if atLineStart && |s| >= 6 && s[..6] == HeredocIndent then DedentFrom(s[6..], false)
    else [s[0]] + DedentFrom(s[1..], s[0] == '\n')
  }

  function IncludeLine(inc: string): string
  {
    "#include <" + inc + ">"
  }

  /** The statement printing one entry: its label and `%d` in the format, its C name as argument. */
  function PrintfLine(e: Entry): string
  {
    "printf(\"" + e.rubyName.text + " %d\\n\", " + e.cname.text + ");"
  }

  /** The heredoc of one entry, before `gsub` strips its indentation. */
  function Heredoc(e: Entry): string
  {
    HeredocIndent + PrintfLine(e) + "\n"
  }

  function IncludesText(incs: seq<string>): string
  {
    if |incs| == 0 then "" else Puts(IncludeLine(incs[0])) + IncludesText(incs[1..])
  }

  function SymbolsText(es: seq<Entry>): string
  {
    if |es| == 0 then "" else Puts(Dedent(Heredoc(es[0]))) + SymbolsText(es[1..])
  }

  const MainHeader: string := "\nint main(void)\n{"
  const MainFooter: string := "\n\treturn 0;\n}"

  /**
   The text written to the temporary source file, `puts` by `puts`. When no header
   name, C name or label holds a newline, it is exactly the probe's lines, each
   followed by a newline.
   */
  function Render(g: Generator): (r: string)
    ensures SingleLineTexts(g) ==> r == JoinLines(ProgramLines(g))
  {
    var r := IncludesText(g.includes) + Puts(MainHeader) + SymbolsText(g.symbols) + Puts(MainFooter);
    assert SingleLineTexts(g) ==> r == JoinLines(ProgramLines(g)) by {
      if SingleLineTexts(g) {
        var incLines := IncludeLines(g.includes);
        var symLines := PrintfLines(g.symbols);
        var head: seq<string> := ["", "int main(void)", "{"];
        var foot: seq<string> := ["", "\treturn 0;", "}"];
        IncludesTextLines(g.includes);
        SymbolsTextLines(g.symbols);
        MainLines();
        JoinLinesAppend(incLines, head);
        JoinLinesAppend(incLines + head, symLines);
        JoinLinesAppend(incLines + head + symLines, foot);
        assert ProgramLines(g) == incLines + head + symLines + foot;
      }
    }
    r
  }

  /** Texts that contain no newline, so each becomes part of a single source line. */
  predicate SingleLineTexts(g: Generator)
  {
    && AllNoNewline(g.includes)
    && forall i :: 0 <= i < |g.symbols| ==> NoNewline(g.symbols[i].cname.text) && NoNewline(g.symbols[i].rubyName.text)
  }

  function IncludeLines(incs: seq<string>): seq<string>
  {
    seq(|incs|, i requires 0 <= i < |incs| => IncludeLine(incs[i]))
  }

  function PrintfLines(es: seq<Entry>): seq<string>
  {
    seq(|es|, j requires 0 <= j < |es| => PrintfLine(es[j]))
  }

  /** The source lines of the probe, each without its newline. */
  function ProgramLines(g: Generator): seq<string>
  {
    IncludeLines(g.includes) + ["", "int main(void)", "{"] + PrintfLines(g.symbols) + ["", "\treturn 0;", "}"]
  }

  lemma {:induction false} DedentSingleLine(t: string)
    requires NoNewline(t)
    ensures DedentFrom(t + "\n", false) == t + "\n"
  {
    if |t| > 0 {
      assert (t + "\n")[1..] == t[1..] + "\n";
      DedentSingleLine(t[1..]);
    }
  }

  /** What `^\t{6}` removes from one line: six leading tabs, if the line has them. */
  function StripIndent(l: string): string
  {
    if |l| >= 6 && l[..6] == HeredocIndent then l[6..] else l
  }

  function StripLines(ls: seq<string>): seq<string>
  {
    seq(|ls|, i requires 0 <= i < |ls| => StripIndent(ls[i]))
  }

  /** Away from a line start, text without a newline is copied as it is. */
  lemma {:induction false} DedentCopies(l: string, t: string)
    requires NoNewline(l)
    ensures DedentFrom(l + t, false) == l + DedentFrom(t, false)
  {
    if |l| > 0 {
      assert (l + t)[1..] == l[1..] + t;
      DedentCopies(l[1..], t);
      assert [l[0]] + l[1..] == l;
    } else {
      assert l + t == t;
    }
  }

  /** A line with six leading tabs keeps them in front of whatever follows it. */
  lemma Indented(l: string, t: string)
    requires |l| >= 6 && l[..6] == HeredocIndent
    ensures (l + t)[..6] == HeredocIndent && (l + t)[6..] == l[6..] + t
  {
    assert (l + t)[..6] == l[..6];
  }

  /** A line without six leading tabs does not get them from a following newline. */
  lemma NotIndented(l: string, t: string)
    requires NoNewline(l) && !(|l| >= 6 && l[..6] == HeredocIndent)
    requires t == "" || t[0] == '\n'
    ensures !(|l + t| >= 6 && (l + t)[..6] == HeredocIndent)
  {
    if |l + t| >= 6 {
      if |l| >= 6 {
        assert (l + t)[..6] == l[..6];
      } else {
        assert (l + t)[..6][|l|] == '\n';
      }
    }
  }

  /** At a line start, a line loses its indentation and what follows is read on. */
  lemma {:induction false} DedentLineThen(l: string, t: string)
    requires NoNewline(l)
    requires t == "" || t[0] == '\n'
    ensures DedentFrom(l + t, true) == StripIndent(l) + DedentFrom(t, false)
  {
    if |l| >= 6 && l[..6] == HeredocIndent {
      Indented(l, t);
      DedentCopies(l[6..], t);
    } else {
      NotIndented(l, t);
      if |l| == 0 {
        assert l + t == t;
        if t != "" {
          NotIndented("", t);
        }
      } else {
        assert (l + t)[1..] == l[1..] + t;
        DedentCopies(l[1..], t);
        assert [l[0]] + l[1..] == l;
      }
    }
  }

  /** One line, a newline and the rest: the line loses its indentation and the rest is read from a line start. */
  lemma DedentLineThenRest(l: string, rest: string)
    requires NoNewline(l)
    ensures DedentFrom(l + "\n" + rest, true) == StripIndent(l) + "\n" + DedentFrom(rest, true)
  {
    DedentLineThen(l, "\n" + rest);
    assert l + "\n" + rest == l + ("\n" + rest);
    assert ("\n" + rest)[1..] == rest;
  }

  /** Dedenting joined lines dedents each line on its own. */
  lemma {:induction false} DedentJoin(ls: seq<string>)
    requires |ls| >= 1
    requires AllNoNewline(ls)
    ensures DedentFrom(JoinWith(ls), true) == JoinWith(StripLines(ls))
  {
    if |ls| == 1 {
      DedentLineThen(ls[0], "");
      assert ls[0] + "" == ls[0];
    } else {
      assert AllNoNewline(ls[1..]) by {
        forall i | 0 <= i < |ls| - 1 ensures NoNewline(ls[1..][i]) {
          assert ls[1..][i] == ls[i + 1];
        }
      }
      var ss := StripLines(ls);
      assert ss[1..] == StripLines(ls[1..]);
      var rest := JoinWith(ls[1..]);
      calc {
        DedentFrom(JoinWith(ls), true);
        DedentFrom(ls[0] + "\n" + rest, true);
        { DedentLineThenRest(ls[0], rest); }
        StripIndent(ls[0]) + "\n" + DedentFrom(rest, true);
        { DedentJoin(ls[1..]); }
        ss[0] + "\n" + JoinWith(ss[1..]);
        JoinWith(ss);
      }
    }
  }

  /**
   `gsub(/^\t{6}/, '')` line by line: the text keeps its lines, and each line loses six
   leading tabs when it starts with them and is otherwise unchanged.
   */
  lemma DedentLines(s: string)
    ensures |Fields(Dedent(s))| == |Fields(s)|
    ensures forall i :: 0 <= i < |Fields(s)| ==> Fields(Dedent(s))[i] == StripIndent(Fields(s)[i])
  {
    var fs := Fields(s);
    DedentJoin(fs);
    var ss := StripLines(fs);
    assert AllNoNewline(ss) by {
      forall i | 0 <= i < |ss| ensures NoNewline(ss[i]) {
        var l := fs[i];
        assert NoNewline(l);
        if |l| >= 6 && l[..6] == HeredocIndent {
          assert forall k :: 0 <= k < |l[6..]| ==> l[6..][k] == l[k + 6];
        }
      }
    }
    FieldsOfJoinWith(ss);
  }

  /** Stripping the heredoc's indentation leaves exactly the printf statement and its newline. */
  lemma DedentHeredoc(e: Entry)
    requires NoNewline(e.cname.text) && NoNewline(e.rubyName.text)
    ensures Dedent(Heredoc(e)) == PrintfLine(e) + "\n"
  {
    var h := Heredoc(e);
    assert h[..6] == HeredocIndent;
    assert h[6..] == PrintfLine(e) + "\n";
    DedentSingleLine(PrintfLine(e));
  }

  lemma {:induction false} IncludesTextLines(incs: seq<string>)
    ensures IncludesText(incs) == JoinLines(IncludeLines(incs))
  {
    var ls := IncludeLines(incs);
    if |incs| > 0 {
      IncludesTextLines(incs[1..]);
      assert ls[1..] == IncludeLines(incs[1..]);
      var l := IncludeLine(incs[0]);
      assert l[|l| - 1] == '>';
    }
  }

  lemma {:induction false} SymbolsTextLines(es: seq<Entry>)
    requires forall i :: 0 <= i < |es| ==> NoNewline(es[i].cname.text) && NoNewline(es[i].rubyName.text)
    ensures SymbolsText(es) == JoinLines(PrintfLines(es))
  {
    var ls := PrintfLines(es);
    if |es| > 0 {
      SymbolsTextLines(es[1..]);
      assert ls[1..] == PrintfLines(es[1..]);
      DedentHeredoc(es[0]);
    }
  }

  lemma JoinThreeLines(a: string, b: string, c: string)
    ensures JoinLines([a, b, c]) == a + "\n" + b + "\n" + c + "\n"
  {
    assert [a, b, c][1..] == [b, c];
    assert [b, c][1..] == [c];
    assert [c][1..] == [];
    assert JoinLines([c]) == c + "\n";
    assert JoinLines([b, c]) == b + "\n" + (c + "\n");
  }

  lemma MainLines()
    ensures Puts(MainHeader) == JoinLines(["", "int main(void)", "{"])
    ensures Puts(MainFooter) == JoinLines(["", "\treturn 0;", "}"])
  {
    JoinThreeLines("", "int main(void)", "{");
    JoinThreeLines("", "\treturn 0;", "}");
  }

  lemma ProgramLinesShape(g: Generator)
    requires SingleLineTexts(g)
    ensures AllNoNewline(ProgramLines(g))
    ensures |ProgramLines(g)| == |g.includes| + |g.symbols| + 6
    ensures forall i :: 0 <= i < |g.includes| ==> ProgramLines(g)[i] == IncludeLine(g.includes[i])
    ensures ProgramLines(g)[|g.includes|] == ""
    ensures ProgramLines(g)[|g.includes| + 1] == "int main(void)"
    ensures ProgramLines(g)[|g.includes| + 2] == "{"
    ensures forall j :: 0 <= j < |g.symbols| ==> ProgramLines(g)[|g.includes| + 3 + j] == PrintfLine(g.symbols[j])
    ensures ProgramLines(g)[|g.includes| + |g.symbols| + 3] == ""
    ensures ProgramLines(g)[|g.includes| + |g.symbols| + 4] == "\treturn 0;"
    ensures ProgramLines(g)[|g.includes| + |g.symbols| + 5] == "}"
  {
    var ls := ProgramLines(g);
    var n := |g.includes|;
    var m := |g.symbols|;
    forall i | 0 <= i < |ls|
      ensures NoNewline(ls[i])
    {
      if i < n {
        assert ls[i] == IncludeLine(g.includes[i]);
      } else if n + 3 <= i < n + 3 + m {
        assert ls[i] == PrintfLine(g.symbols[i - n - 3]);
      }
    }
  }

  /**
   Read line by line, the probe source is: one `#include <h>` per header in list order,
   duplicates included; a blank line; `int main(void)` and `{`; one printf per table
   entry in table order, printing `<label> %d` with the C name as argument; a blank
   line, `return 0;` and the closing brace.
   */
  lemma RenderLayout(g: Generator)
    requires SingleLineTexts(g)
    ensures |SplitLines(Render(g))| == |g.includes| + |g.symbols| + 6
    ensures forall i :: 0 <= i < |g.includes| ==> SplitLines(Render(g))[i] == "#include <" + g.includes[i] + ">"
    ensures SplitLines(Render(g))[|g.includes|] == ""
    ensures SplitLines(Render(g))[|g.includes| + 1] == "int main(void)"
    ensures SplitLines(Render(g))[|g.includes| + 2] == "{"
    ensures forall j :: 0 <= j < |g.symbols| ==>
      SplitLines(Render(g))[|g.includes| + 3 + j]
      == "printf(\"" + g.symbols[j].rubyName.text + " %d\\n\", " + g.symbols[j].cname.text + ");"
    ensures SplitLines(Render(g))[|g.includes| + |g.symbols| + 3] == ""
    ensures SplitLines(Render(g))[|g.includes| + |g.symbols| + 4] == "\treturn 0;"
    ensures SplitLines(Render(g))[|g.includes| + |g.symbols| + 5] == "}"
  {
    ProgramLinesShape(g);
    SplitJoinLines(ProgramLines(g));
  }

  /** A generator with one header and no symbols renders to the bare skeleton around that header. */
  lemma BareProbe(g: Generator)
    requires |g.includes| == 1 && g.symbols == []
    ensures Render(g) == "#include <" + g.includes[0] + ">\n\nint main(void)\n{\n\n\treturn 0;\n}\n"
  {
    var h := g.includes[0];
    assert IncludesText(g.includes) == "#include <" + h + ">\n";
    assert SymbolsText(g.symbols) == "";
    SkeletonPieces();
    SkeletonAround(h);
  }

  /** The two fixed pieces of `main` as printed; a lemma of its own to keep the literals out of `BareProbe`. */
  lemma SkeletonPieces()
    ensures Puts(MainHeader) == "\nint main(void)\n{\n"
    ensures Puts(MainFooter) == "\n\treturn 0;\n}\n"
  {
  }

  /** The include line and the two pieces of `main`, spelled as one literal around the header name. */
  lemma SkeletonAround(h: string)
    ensures ("#include <" + h + ">\n") + "\nint main(void)\n{\n" + "" + "\n\treturn 0;\n}\n"
         == "#include <" + h + ">\n\nint main(void)\n{\n\n\treturn 0;\n}\n"
  {
    assert ">\n" + "\nint main(void)\n{\n" + "\n\treturn 0;\n}\n" == ">\n\nint main(void)\n{\n\n\treturn 0;\n}\n";
  }

  /** With the fresh header list and no symbols, the probe is the bare skeleton. */
  lemma FreshProbe()
    ensures Render(Fresh()) == "#include <stdio.h>\n\nint main(void)\n{\n\n\treturn 0;\n}\n"
  {
    var g := Fresh();
    assert g.includes[0] == "stdio.h";
    BareProbe(g);
    StdioSkeleton();
  }

  /**
   The skeleton around "stdio.h", spelled as one literal; a lemma of its own so that the
   character-by-character comparison is not repeated inside the proofs about `Render`.
   */
  lemma StdioSkeleton()
    ensures "#include <" + "stdio.h" + ">\n\nint main(void)\n{\n\n\treturn 0;\n}\n"
         == "#include <stdio.h>\n\nint main(void)\n{\n\n\treturn 0;\n}\n"
  {
  }
}

=== FILE: results.dfy ===
/** Failure-carrying wrappers shared by the modules of the enum generator model. */
module Results {

  /** An optional value; `None` also stands for Ruby's `nil`. */
  datatype Option<+T> = None | Some(value: T) {
    function GetOr(default: T): T
    {
      match this
      case Some(v) => v
      case None => default
    }
  }

  /** Either a value or the error that Ruby would raise instead. */
  datatype Result<+R, +E> = Success(value: R) | Failure(error: E)
}
